=== FILE: README.md ===
# Ice-cream catalog store, modelled in Dafny

This project models the catalog persistence layer of a small ordering
page. `assets/js/store.js` keeps a list of priced items in an in-memory
cache. It binds that cache to a JSON file the user picks or creates, and
remembers the file's handle in IndexedDB across page loads. It falls back
to four seeded items whenever the file cannot be used. Cart quantities are
kept apart, in localStorage. `assets/js/fileStore.js` is a sibling variant
that keeps the catalog in the browser's origin-private file system and
reads the file afresh on every call.

The browser is replaced by explicit data:

- `Store.State` holds the cache, the bound handle, the IndexedDB slot, the
  user's files (each as what it parses to) and the quantity map.
- `Store.Env` holds what one call learns from the platform: which APIs
  exist, whether IndexedDB and file writes work, the user's answers to
  permission prompts, the `Date.now()` readings (`clock(i)` while
  sanitizing element i, and a separate `idNow` that `addItem` reads for
  its id after loading the catalog) and the ISO time string.
- Every operation is a pure function returning the next state and a
  `Result`. A `Failure` stands for a thrown `Error`.

Modules:

- `Wrappers`: `Option` and `Result`.
- `Radix`: the digit strings `toString(36)` and template literals produce.
  It proves them readable back, hence injective.
- `Catalog`: items, untrusted records, the parsed-JSON shape, the defaults,
  the sanitizer and synthetic ids.
- `Import`: the import pipeline both files share.
- `Store`: store.js.
- `FileStore`: fileStore.js.

Behaviours of the code that a reader of its comments might not expect, all
modelled as the code has them:

- A `null` element in an imported array makes `x.id` throw a `TypeError`,
  so the sanitizer does fail on it (`NullEntryAccess`). Other non-object
  elements read as records whose fields are all absent.
- `saveItems` updates the cache before checking write permission. A refused
  or failed write therefore throws while the cache already holds the new
  list.
- `chooseDataFile` discards the result of its read-permission request.
- `deleteItem` removes the quantity entry only after the save succeeded.
- store.js exports its cache. fileStore.js exports by re-reading the file,
  which resets a corrupt file to the defaults.
- `init` binds the remembered handle before asking for read permission,
  and keeps it bound when permission is refused or the read fails. The
  cache then holds the defaults, so the next save that gets write
  permission overwrites the user's file with the defaults plus the change
  (`Store.RefusedReadThenAddOverwritesFile`).
- A parsed JSON array never has an `items` key. So "`items` wins over a bare
  array" never decides anything; the two shapes are distinct `Json` cases.

## Model

| member | source | states |
|---|---|---|
| `Radix.ValueOfToRadix` | assets/js/store.js:230 | the base-b digit string of n reads back as n, so the timestamp and index parts of a synthetic id carry their numbers faithfully |
| `Radix.ToRadixInjective` | assets/js/store.js:230 | two different numbers never print as the same digit string |
| `Catalog.Sanitize` | assets/js/store.js:229-235 | the sanitizer never fails: truthy fields survive unchanged, a falsy id becomes the fallback id (`ic-<time>-<index>` in an import), a falsy name, image URL or unit becomes "未命名", "" or "支", the price is `max(0, price)` and never negative, and with a non-empty fallback id the item is well-formed |
| `Catalog.SanitizeFixesExactlyWellFormed` | assets/js/store.js:89-95 | sanitizing an item that was written and parsed back returns it unchanged if and only if it is well-formed (non-empty id, name and unit, price at least zero) |
| `Catalog.SanitizeIdempotent` | assets/js/store.js:229-235 | sanitizing a sanitized item again changes nothing |
| `Catalog.DefaultsWellFormed` | assets/js/store.js:7-12 | there are exactly four seeded items and each is well-formed |
| `Catalog.SyntheticIdsDistinct` | assets/js/store.js:230 | `ic-<time>-<i>` and `ic-<time'>-<j>` differ whenever i and j differ, whatever the two clock readings |
| `Import.ImportArray` | assets/js/store.js:225-228 | a falsy or unparsable payload fails as unparsable; an `items` array or a bare array is taken; anything else fails as having no items array |
| `Import.SanitizeBatch` | assets/js/store.js:229-235 | the batch succeeds exactly when no element is null; on success it has the input's length and order, element i sanitized with the synthetic id for index i |
| `Import.Pipeline` | assets/js/store.js:225-235 | import errors come in the source's order (parse, then missing array, then a null element); once the array is found the result is exactly the batch sanitizer on it, so a success has one well-formed item per array element, element i sanitized with id fallback `ic-<clock(i)>-<i>` |
| `Import.BatchIds` | assets/js/store.js:229-230 | within one batch, entries with a truthy id keep it, entries without one get `ic-<clock(i)>-<i>`, and those generated ids are pairwise distinct |
| `Import.BatchOfWrittenItems` | assets/js/store.js:89-95 | reading back a written catalog yields that catalog if and only if every item is well-formed |
| `Store.EnsurePermission` | assets/js/store.js:73-81 | no handle means refused and no call is made; a handle without a permission API means granted with no call; otherwise the query is made first, a request follows exactly when the query did not grant, and the result is granted exactly when the last answer is "granted" |
| `Store.GrantedWithoutPromptOnlyAfterQuery` | assets/js/store.js:77-80 | access granted without a prompt means the API is absent or the query already said "granted"; a prompt only ever follows a query that did not grant |
| `Store.ReadItemsFromHandle` | assets/js/store.js:83-96 | a missing file fails to read, a file without an items array fails with the format error, a null element fails with the TypeError, and a success holds element i sanitized with the synthetic id `ic-<clock(i)>-<i>`, one well-formed item per array element |
| `Store.WriteItemsToHandle` | assets/js/store.js:98-103 | the write succeeds exactly when writing works; the file then holds the items under `version: 1` with an `updatedAt` stamp and every other file is unchanged; a failure throws the write error |
| `Store.Init` | assets/js/store.js:105-133 | init always leaves a well-formed cache; the file's items are used if and only if the file API exists, IndexedDB works, a handle is stored, read permission is granted and the read succeeds; every other path yields the four defaults; nothing is written |
| `Store.GetItems` | assets/js/store.js:135-138 | getItems returns the cache and runs init only when the cache was never filled |
| `Store.SaveItems` | assets/js/store.js:140-147 | the cache becomes the new list even when the write is refused; the save succeeds exactly when unbound, or when write permission is granted and the write works; a refusal throws the permission error and a failed write the write error, both leaving the files alone; on success the bound file holds the new list under `version: 1` |
| `Store.SaveThenGetItems` | assets/js/store.js:140-145 | after any save, successful or not, the next getItems returns the saved list |
| `Store.SavedCatalogSurvivesRestart` | assets/js/store.js:98-133 | a well-formed catalog written to the remembered file is exactly what init restores after a page reload |
| `Store.RefusedReadThenAddOverwritesFile` | assets/js/store.js:105-194 | when init may not read the remembered file it still binds it, so the next add with write permission overwrites that file with the four defaults plus the new item |
| `Store.CurrentFileName` | assets/js/store.js:175-178 | the name is null exactly when no file is bound, is never empty, and is the platform's name when it reports one |
| `Store.ChooseDataFile` | assets/js/store.js:149-160 | an unsupported API or a dismissed picker changes nothing; otherwise the picked file is bound; it succeeds exactly when IndexedDB works and the file reads; the handle is remembered before the read, so a file that fails to read stays remembered, the cache is kept and the read's own error (missing file, format error, null element) is thrown; if IndexedDB fails nothing but the binding changes; on success its sanitized items replace the cache |
| `Store.CreateDataFile` | assets/js/store.js:162-173 | an unsupported API or a dismissed picker changes nothing; otherwise the new file is bound and the create succeeds exactly when IndexedDB and the write work; if IndexedDB fails it throws with nothing else changed; otherwise the file is remembered and the cache reset to the defaults, and the file holds them on success and is untouched on failure |
| `Store.AddItem` | assets/js/store.js:181-194 | exactly one sanitized item is appended, earlier items are unchanged, a truthy id is kept, the add succeeds exactly when the following save does, throws that save's error otherwise and leaves the state that save leaves, and the returned item is the stored last one |
| `Store.FindIndex` | assets/js/store.js:198 | the result is -1 exactly when no item has the id, and otherwise the first position holding it |
| `Store.Merge` | assets/js/store.js:200-206 | a merged item keeps its id; each of name, image URL and unit is the patch's value when present (even empty) and the old value when null; the price is the patch's or the old one, clamped at zero; an all-null patch leaves a well-priced item unchanged |
| `Store.MergeIdempotent` | assets/js/store.js:200-206 | applying the same update twice equals applying it once |
| `Store.UpdateKeepsEmptyName` | assets/js/store.js:202 | an empty-string name is stored as given by update, while add would store the default name |
| `Store.UpdateItem` | assets/js/store.js:196-209 | update returns false with nothing changed exactly when no item has the id; otherwise the list keeps its length, only the first matching item changes, merged field by field, its id is kept, prices stay non-negative, it succeeds exactly when saving the new list does, throws that save's error otherwise, and leaves the state that save leaves |
| `Store.Without` | assets/js/store.js:213 | no survivor has the id, every item without the id survives, nothing new appears, and an absent id changes nothing |
| `Store.WithoutKeepsOrder` | assets/js/store.js:213 | deletion keeps the survivors as an ordered subsequence with their multiplicities and leaves no copy of a deleted item |
| `Store.DeleteItem` | assets/js/store.js:211-217 | the cache loses every item with the id; outcome, files, handle and IndexedDB slot are those of saving the filtered list; after a successful save the id's quantity entry is gone and all others are kept; an absent key or a failed save leaves the quantities untouched |
| `Store.ExportItems` | assets/js/store.js:219-222 | export returns the cache under `version: 1` with a `generatedAt` stamp |
| `Store.ImportItemsFromText` | assets/js/store.js:224-240 | payload errors (parse, missing array, null element) change nothing; otherwise the cache is the cleaned list, the import succeeds exactly when saving it does, throws that save's error otherwise, and the files are what that save leaves; on success the count equals the array length, the items are well-formed and the quantities are `{}`; a failed save keeps the quantities |
| `Store.ExportThenImport` | assets/js/store.js:219-240 | importing an export of a well-formed catalog restores the exported list and reports its length |
| `Store.SaveQuantities` | assets/js/store.js:243-251 | saveQuantities then getQuantities returns the saved map; the cache, handle, IndexedDB slot and files are untouched |
| `Store.QuantitiesSurviveReload` | assets/js/store.js:243-247 | the cart map survives a page reload and init, and no catalog save changes it |
| `Store.ClearQuantities` | assets/js/store.js:253 | the quantities become empty; the cache, handle, IndexedDB slot and files are untouched |
| `FileStore.WriteItems` | assets/js/fileStore.js:49-55 | the write succeeds exactly when the file system exists and writing works; the file then holds `version: 1`, an `updatedAt` stamp and the entries unchanged; a failure leaves the file alone |
| `FileStore.ReadItems` | assets/js/fileStore.js:36-47 | an `items` array is returned verbatim with no write; anything else resets the file to the defaults and returns them; a successful read always leaves a file with an items array equal to what was returned |
| `FileStore.ExportText` | assets/js/fileStore.js:57-61 | export reads through readItems, so a corrupt file exports the defaults, and wraps the items under `version: 1` with a `generatedAt` stamp |
| `FileStore.ImportFromText` | assets/js/fileStore.js:63-77 | the same payload errors as the store (parse, missing array, null element), each leaving the file alone; a clean payload is imported exactly when the file system exists and the write works, the file then holding the cleaned list and the count being the array length |
| `FileStore.WriteThenRead` | assets/js/fileStore.js:36-55 | what was written is what the next read returns, and that read writes nothing |
| `FileStore.ReadIsStable` | assets/js/fileStore.js:36-47 | a second read returns the same entries as the first and leaves the file as the first left it |
| `FileStore.BareArrayAcceptedOnlyByImport` | assets/js/fileStore.js:41-46 | a bare array of records is accepted by import yet makes readItems reset the file to the defaults |
| `FileStore.CorruptFileExportsDefaults` | assets/js/fileStore.js:57-61 | a file without an items array exports as the four defaults and is left holding them |
| `FileStore.ImportThenExport` | assets/js/fileStore.js:57-77 | after a successful import, export returns the cleaned list in the imported order |

## Left out

- IndexedDB plumbing (`openDb`, `idbGet`, `idbSet`, store.js:23-61): the slot is `State.registry`; any failure of it is the `idbWorks` flag.
- File pickers, `getFile`/`text` (store.js:84-85, fileStore.js:38-39), `createWritable`/`write`/`close` and `Blob` (store.js:98-103, fileStore.js:51-54), the OPFS directory walk and `navigator.storage.persist` (fileStore.js:13-34) are browser I/O. A picker result is an `Option<Handle>`. A file is what it parses to. Write success is a flag.
- `JSON.parse` and `JSON.stringify` are library calls. Operations take the parsed shape (`Catalog.Json`). `Catalog.Document` stands for a written wrapper read back. Pretty-printing and the `updatedAt`/`generatedAt` strings are not modelled beyond an opaque ISO string.
- `Number(...)` coercion of strings and other non-numeric prices, and the NaN it can produce: only numeric prices are modelled, as `real`.
- `String(...)` of non-string ids, names, image URLs or units (numbers, booleans): only strings and absent values are modelled.
- Properties other than the five item fields: the records a spread (`...items[idx]`) or `readItems` would carry along are dropped.
- An exception thrown by `queryPermission`/`requestPermission` themselves: `init` would absorb it into the defaults and the other callers would pass it on. The model treats the permission API as always answering.
- `getQuantities` falling back to `{}` on unparsable localStorage text: the quantities are kept as a map.
- `currencyCny` (store.js:255): floating-point formatting.
- assets/js/app.js and assets/js/admin.js: DOM rendering, event wiring and form validation.
- Concurrency: calls are modelled one at a time. The source has no lock, so interleaved async calls are out of scope.
- The guarantee that ids are unique across a whole catalog: the source never enforces it. Explicit ids from an import may repeat or clash with generated ones, and two `addItem` calls in the same millisecond share an id. Only distinctness of the ids generated within one import batch is proved (`Import.BatchIds`).

=== FILE: catalog.dfy ===
/** The catalog's data model shared by both persistence variants
    (assets/js/store.js and assets/js/fileStore.js): the stored `Item`, the
    untrusted records it is built from, the shape of a parsed JSON document,
    the built-in default catalog, and the per-record sanitizer. */
module Catalog {
  import opened Wrappers
  import Radix

  /** A catalog entry as the store keeps it in its cache and writes it to disk. */
  datatype Item = Item(id: string, name: string, priceCny: real, imageUrl: string, unit: string)

  /** A string-valued field of an untrusted record. `Absent` stands for both
      `undefined` and `null`: neither `||` nor `??` tells them apart. */
  datatype RawText = Absent | Text(s: string)

  /** The price field of an untrusted record; only numeric prices are modelled. */
  datatype RawPrice = NoPrice | Num(v: real)

  /** The fields of an untrusted record (an import entry or an add/update argument). */
  datatype RawItem = RawItem(id: RawText, name: RawText, priceCny: RawPrice, imageUrl: RawText, unit: RawText)

  /** One element of a parsed items array. A `null` element is kept apart
      because reading a property of it throws; any other non-object element
      (number, string, nested array) reads as a record whose fields are all absent. */
  datatype Entry = NullEntry | Record(fields: RawItem)

  /** The timestamp key of a catalog wrapper: `updatedAt` on disk, `generatedAt` in an export. */
  datatype Stamp = UpdatedAt(iso: string) | GeneratedAt(iso: string)

  /** What `safeParse(text, null)` hands back, reduced to what the readers inspect.
      `Falsy` covers a parse failure (the fallback `null`) and the JSON values
      `null`, `false`, `0` and `""`. `JObject.items` is `None` when the key is
      missing or its value is not an array. `OtherTruthy` is a non-empty string,
      a non-zero number or `true`. */
  datatype Json =
    | Falsy
    | JArray(elements: seq<Entry>)
    | JObject(version: Option<int>, stamp: Option<Stamp>, items: Option<seq<Entry>>)
    | OtherTruthy

  /** The reasons an operation throws. */
  datatype Error =
    | PickerUnsupported    // the file-picker API is missing
    | OpfsUnsupported      // navigator.storage.getDirectory is missing
    | PickerCancelled      // the user dismissed the open/save dialog
    | RegistryFailed       // IndexedDB could not store the handle
    | ReadFailed           // the bound file could not be read
    | WriteFailed          // the bound file could not be written
    | NoWritePermission    // "没有写入权限"
    | FileWithoutItems     // "文件格式不正确：未找到 items 数组"
    | ImportUnparsable     // "导入失败：JSON 无法解析"
    | ImportWithoutItems   // "导入失败：未找到 items 数组"
    | NullEntryAccess      // TypeError from reading a field of a null entry

  const DefaultName: string := "未命名"
  const DefaultUnit: string := "支"

  /** The four seeded items the store falls back to. */
  const Defaults: seq<Item> := [
    Item("ic-vanilla", "香草雪糕", 6.0, "", "支"),
    Item("ic-choco", "巧克力雪糕", 8.5, "", "支"),
    Item("ic-matcha", "抹茶雪糕", 9.9, "", "支"),
    Item("ic-strawberry", "草莓雪球", 7.5, "", "支")
  ]

  /** JavaScript truthiness of a string-valued field. */
  predicate Truthy(t: RawText) {
    t.Text? && t.s != ""
  }

  /** The `||` fallback: the field when it is truthy, else the default. */
  function OrElse(t: RawText, fallback: string): string {
    if Truthy(t) then t.s else fallback
  }

  /** The `??` fallback: the field when it is present (even empty), else the default. */
  function IfNullish(t: RawText, fallback: string): string {
    if t.Text? then t.s else fallback
  }

  /** A price clamped at zero from below. */
  function NonNegative(x: real): real {
    if x < 0.0 then 0.0 else x
  }

  /** A raw price clamped at zero; a missing price counts as zero. */
  function CleanPrice(p: RawPrice): real {
    match p
    case NoPrice => 0.0
    case Num(v) => NonNegative(v)
  }

  /** The invariant every sanitized item satisfies. */
  predicate WellFormed(it: Item) {
    it.id != "" && it.name != "" && it.priceCny >= 0.0 && it.unit != ""
  }

  predicate AllWellFormed(items: seq<Item>) {
    forall i :: 0 <= i < |items| ==> WellFormed(items[i])
  }

  /** The id an import gives to the entry at `index` when it has none:
      `ic-${Date.now().toString(36)}-${index}`, `now` being the clock reading. */
  function SyntheticId(now: nat, index: nat): string {
    "ic-" + Radix.ToRadix(now, 36) + "-" + Radix.ToRadix(index, 10)
  }

  /** The id `addItem` gives an item that has none: `ic-${Date.now().toString(36)}`. */
  function AddedId(now: nat): string {
    "ic-" + Radix.ToRadix(now, 36)
  }

  /** The sanitizer: every falsy field takes its default, the price is clamped
      at zero, and a falsy id takes `fallbackId`. It never fails. */
  function Sanitize(raw: RawItem, fallbackId: string): (it: Item)
    ensures it.priceCny >= 0.0
    ensures it.name != "" && it.unit != ""
    ensures fallbackId != "" ==> WellFormed(it)
    ensures Truthy(raw.id) ==> it.id == raw.id.s
    ensures !Truthy(raw.id) ==> it.id == fallbackId
    ensures Truthy(raw.name) ==> it.name == raw.name.s
    ensures Truthy(raw.imageUrl) ==> it.imageUrl == raw.imageUrl.s
    ensures Truthy(raw.unit) ==> it.unit == raw.unit.s
    ensures raw.priceCny.Num? && raw.priceCny.v >= 0.0 ==> it.priceCny == raw.priceCny.v
    ensures !Truthy(raw.name) ==> it.name == DefaultName
    ensures !Truthy(raw.imageUrl) ==> it.imageUrl == ""
    ensures !Truthy(raw.unit) ==> it.unit == DefaultUnit
    ensures raw.priceCny.NoPrice? || raw.priceCny.v <= 0.0 ==> it.priceCny == 0.0
  {
    Item(OrElse(raw.id, fallbackId), OrElse(raw.name, DefaultName), CleanPrice(raw.priceCny),
         OrElse(raw.imageUrl, ""), OrElse(raw.unit, DefaultUnit))
  }

  /** How an item looks to a reader once it has been written as JSON and parsed back. */
  function ToEntry(it: Item): Entry {
    Record(RawItem(Text(it.id), Text(it.name), Num(it.priceCny), Text(it.imageUrl), Text(it.unit)))
  }

  function ToEntries(items: seq<Item>): seq<Entry> {
    seq(|items|, i requires 0 <= i < |items| => ToEntry(items[i]))
  }

  /** The catalog wrapper `{ version: 1, <stamp>, items }` as a reader parses it back. */
  function Document(stamp: Stamp, items: seq<Entry>): Json {
    JObject(Some(1), Some(stamp), Some(items))
  }

  /** Sanitizing a written-and-reparsed item gives it back exactly when the
      item already satisfies the sanitizer's invariant. */
  lemma SanitizeFixesExactlyWellFormed(it: Item, fallbackId: string)
    requires fallbackId != ""
    ensures Sanitize(ToEntry(it).fields, fallbackId) == it <==> WellFormed(it)
  {
    if Sanitize(ToEntry(it).fields, fallbackId) == it {
      assert WellFormed(Sanitize(ToEntry(it).fields, fallbackId));
    }
  }

  /** Sanitizing is idempotent once the result has been written out. */
  lemma SanitizeIdempotent(raw: RawItem, fallbackId: string, otherId: string)
    requires fallbackId != "" && otherId != ""
    ensures Sanitize(ToEntry(Sanitize(raw, fallbackId)).fields, otherId) == Sanitize(raw, fallbackId)
  {
    SanitizeFixesExactlyWellFormed(Sanitize(raw, fallbackId), otherId);
  }

  lemma DefaultsWellFormed()
    ensures |Defaults| == 4 && AllWellFormed(Defaults)
  {
  }

  /** In `ic-<a>-<b>` against `ic-<c>-<d>` with `a` shorter, the dash that
      ends `a` lines up with a digit of `c`. */
  lemma DashMeetsDigit(a: string, b: string, c: string, d: string)
    requires |a| < |c|
    requires forall k :: 0 <= k < |c| ==> Radix.IsDigitChar(c[k])
    ensures ("ic-" + a + "-" + b)[3 + |a|] != ("ic-" + c + "-" + d)[3 + |a|]
  {
    assert ("ic-" + a + "-" + b)[3 + |a|] == '-';
    assert ("ic-" + c + "-" + d)[3 + |a|] == c[|a|];
  }

  /** Splitting `ic-<a>-<b>` at its second dash is unambiguous when `a` holds no dash. */
  lemma SplitAtDash(a: string, b: string, c: string, d: string)
    requires forall k :: 0 <= k < |a| ==> Radix.IsDigitChar(a[k])
    requires forall k :: 0 <= k < |c| ==> Radix.IsDigitChar(c[k])
    requires "ic-" + a + "-" + b == "ic-" + c + "-" + d
    ensures a == c && b == d
  {
    var x := "ic-" + a + "-" + b;
    var y := "ic-" + c + "-" + d;
    if |a| < |c| {
      DashMeetsDigit(a, b, c, d);
    } else if |c| < |a| {
      DashMeetsDigit(c, d, a, b);
    } else {
      assert a == x[3..3 + |a|] == y[3..3 + |c|] == c;
      assert b == x[4 + |a|..] == y[4 + |c|..] == d;
    }
  }

  /** Two entries of one import batch never receive the same synthetic id,
      whatever the clock read for each of them. */
  lemma SyntheticIdsDistinct(now1: nat, i: nat, now2: nat, j: nat)
    requires i != j
    ensures SyntheticId(now1, i) != SyntheticId(now2, j)
  {
    if SyntheticId(now1, i) == SyntheticId(now2, j) {
      SplitAtDash(Radix.ToRadix(now1, 36), Radix.ToRadix(i, 10),
                  Radix.ToRadix(now2, 36), Radix.ToRadix(j, 10));
      Radix.ToRadixInjective(i, j, 10);
    }
  }
}

=== FILE: filestore.dfy ===
/** The sandboxed-file variant of assets/js/fileStore.js: the catalog lives
    in `icecream/items.json` of the origin-private file system and is read
    afresh on every call; there is no cache. The file's content is modelled
    as what it parses to (a freshly created, empty file parses to nothing,
    i.e. `Falsy`). */
module FileStore {
  import opened Wrappers
  import opened Catalog
  import Import

  /** The platform as one call sees it: whether `navigator.storage.getDirectory`
      exists, whether writing the file succeeds, the clock and the ISO time. */
  datatype OpfsEnv = OpfsEnv(supported: bool, writeWorks: bool, clock: nat -> nat, iso: string)

  /** The file's content after an operation and what the operation returned or threw. */
  datatype Outcome<T> = Outcome(file: Json, out: Result<T, Error>)

  /** The seeded catalog as it is written to disk. */
  function DefaultEntries(): (es: seq<Entry>)
    ensures |es| == 4
  {
    ToEntries(Defaults)
  }

  /** Whether the file holds an object with an `items` array. */
  predicate HasItemsArray(file: Json) {
    file.JObject? && file.items.Some?
  }

  /** `writeItems(items)`: replace the file by `{ version: 1, updatedAt, items }`
      with the entries exactly as given. */
  function WriteItems(file: Json, env: OpfsEnv, items: seq<Entry>): (r: Outcome<()>)
    ensures !env.supported ==> r == Outcome(file, Failure(OpfsUnsupported))
    ensures r.out.Success? <==> env.supported && env.writeWorks
    ensures r.out.Success? ==>
              r.file.JObject? && r.file.version == Some(1) && r.file.stamp == Some(UpdatedAt(env.iso))
              && r.file.items == Some(items)
    ensures r.out.Failure? ==> r.file == file
  {
    if !env.supported then Outcome(file, Failure(OpfsUnsupported))
    else if !env.writeWorks then Outcome(file, Failure(WriteFailed))
    else Outcome(Document(UpdatedAt(env.iso), items), Success(()))
  }

  /** `readItems()`: the file's `items` array verbatim, unsanitized; anything
      else (unparsable, null, a bare array, an object without an `items`
      array) resets the file to the defaults and returns a copy of them. */
  function ReadItems(file: Json, env: OpfsEnv): (r: Outcome<seq<Entry>>)
    ensures !env.supported ==> r == Outcome(file, Failure(OpfsUnsupported))
    ensures env.supported && HasItemsArray(file) ==> r == Outcome(file, Success(file.items.value))
    ensures env.supported && !HasItemsArray(file) ==>
              r.file == WriteItems(file, env, DefaultEntries()).file
              && (r.out.Success? <==> env.writeWorks)
              && (r.out.Success? ==> r.out.value == DefaultEntries())
    ensures r.out.Success? ==> HasItemsArray(r.file) && r.out.value == r.file.items.value
  {
    if !env.supported then Outcome(file, Failure(OpfsUnsupported))
    else if !HasItemsArray(file) then
      var written := WriteItems(file, env, DefaultEntries());
      match written.out
      case Failure(e) => Outcome(written.file, Failure(e))
      case Success(_) => Outcome(written.file, Success(DefaultEntries()))
    else Outcome(file, Success(file.items.value))
  }

  /** `exportText()`: reads through `readItems`, so a corrupt file exports
      (and is reset to) the defaults; the wrapper is `{ version: 1, generatedAt, items }`. */
  function ExportText(file: Json, env: OpfsEnv): (r: Outcome<Json>)
    ensures r.file == ReadItems(file, env).file
    ensures r.out.Success? <==> ReadItems(file, env).out.Success?
    ensures r.out.Success? ==>
              r.out.value.JObject? && r.out.value.version == Some(1)
              && r.out.value.stamp == Some(GeneratedAt(env.iso))
              && r.out.value.items == Some(ReadItems(file, env).out.value)
  {
    var read := ReadItems(file, env);
    match read.out
    case Failure(e) => Outcome(read.file, Failure(e))
    case Success(items) => Outcome(read.file, Success(Document(GeneratedAt(env.iso), items)))
  }

  /** `importFromText(text)`: the same checks and sanitizer as the store's
      import, then the cleaned list is written and its length returned. */
  function ImportFromText(file: Json, env: OpfsEnv, data: Json): (r: Outcome<nat>)
    ensures data.Falsy? ==> r == Outcome(file, Failure(ImportUnparsable))
    ensures !data.Falsy? && Import.ItemsArray(data).None? ==> r == Outcome(file, Failure(ImportWithoutItems))
    ensures r.out.Success? ==>
              && Import.Pipeline(data, env.clock).Success?
              && r.out.value == |Import.ItemsArray(data).value|
              && r.file == Document(UpdatedAt(env.iso), ToEntries(Import.Pipeline(data, env.clock).value))
    ensures Import.Pipeline(data, env.clock).Success? ==> (r.out.Success? <==> env.supported && env.writeWorks)
    ensures Import.Pipeline(data, env.clock).Failure? ==>
              r == Outcome(file, Failure(Import.Pipeline(data, env.clock).error))
    ensures r.out.Failure? ==> r.file == file
  {
    match Import.Pipeline(data, env.clock)
    case Failure(e) => Outcome(file, Failure(e))
    case Success(cleaned) =>
      var written := WriteItems(file, env, ToEntries(cleaned));
      match written.out
      case Failure(e) => Outcome(written.file, Failure(e))
      case Success(_) => Outcome(written.file, Success(|cleaned|))
  }

  /** What was written is what the next read returns, and that read leaves
      the file alone. */
  lemma WriteThenRead(file: Json, env: OpfsEnv, items: seq<Entry>, env': OpfsEnv)
    requires WriteItems(file, env, items).out.Success? && env'.supported
    ensures var written := WriteItems(file, env, items).file;
      ReadItems(written, env') == Outcome(written, Success(items))
  {
  }

  /** Reading twice returns the same entries as reading once, and the second
      read writes nothing: the fallback leaves a file the next read accepts. */
  lemma ReadIsStable(file: Json, env: OpfsEnv, env': OpfsEnv)
    requires ReadItems(file, env).out.Success? && env'.supported
    ensures var first := ReadItems(file, env);
      ReadItems(first.file, env') == first
  {
  }

  /** A bare array is accepted by an import but makes `readItems` reset the file. */
  lemma BareArrayAcceptedOnlyByImport(file: Json, env: OpfsEnv, entries: seq<Entry>)
    requires env.supported && env.writeWorks
    requires forall i :: 0 <= i < |entries| ==> entries[i].Record?
    ensures ImportFromText(file, env, JArray(entries)).out == Success(|entries|)
    ensures ReadItems(JArray(entries), env) ==
              Outcome(Document(UpdatedAt(env.iso), DefaultEntries()), Success(DefaultEntries()))
  {
    assert Import.SanitizeBatch(entries, env.clock).Success?;
  }

  /** After a successful import, an export returns the cleaned list, in the
      order of the imported array. */
  lemma ImportThenExport(file: Json, env: OpfsEnv, data: Json, env': OpfsEnv)
    requires ImportFromText(file, env, data).out.Success? && env'.supported
    ensures var cleaned := Import.Pipeline(data, env.clock).value;
      ExportText(ImportFromText(file, env, data).file, env').out
        == Success(Document(GeneratedAt(env'.iso), ToEntries(cleaned)))
  {
  }

  /** A file without an items array exports as the four defaults, and the
      export leaves the defaults written to the file. */
  lemma CorruptFileExportsDefaults(file: Json, env: OpfsEnv)
    requires env.supported && env.writeWorks && !HasItemsArray(file)
    ensures ExportText(file, env) ==
              Outcome(Document(UpdatedAt(env.iso), DefaultEntries()),
                      Success(Document(GeneratedAt(env.iso), DefaultEntries())))
  {
  }
}

=== FILE: import.dfy ===
/** The import pipeline shared by `importItemsFromText` (assets/js/store.js)
    and `importFromText` (assets/js/fileStore.js), and the items-array lookup
    that `readItemsFromHandle` uses: pick the items array out of a parsed
    payload, then sanitize every entry with a per-index synthetic id. */
module Import {
  import opened Wrappers
  import opened Catalog

  /** The items array of a parsed payload: the `items` array of an object,
      or the payload itself when it is an array, else none. A parsed array
      never has an `items` key, so the two cases never compete. */
  function ItemsArray(data: Json): Option<seq<Entry>> {
    match data
    case JObject(_, _, Some(xs)) => Some(xs)
    case JArray(xs) => Some(xs)
    case _ => None
  }

  /** The two checks an import makes before it touches any entry. */
  function ImportArray(data: Json): (r: Result<seq<Entry>, Error>)
    ensures data.Falsy? ==> r == Failure(ImportUnparsable)
    ensures data.JArray? ==> r == Success(data.elements)
    ensures data.JObject? && data.items.Some? ==> r == Success(data.items.value)
    ensures data.OtherTruthy? || (data.JObject? && data.items.None?) ==> r == Failure(ImportWithoutItems)
  {
    if data.Falsy? then Failure(ImportUnparsable)
    else match ItemsArray(data)
      case None => Failure(ImportWithoutItems)
      case Some(xs) => Success(xs)
  }

  /** Sanitize every element in order, element `i` falling back to the
      synthetic id for index `i`; a null element throws. The clock is read
      afresh for every element (`clock(i)` is the reading for element `i`). */
  function SanitizeBatch(arr: seq<Entry>, clock: nat -> nat): (r: Result<seq<Item>, Error>)
    ensures r.Success? <==> forall i :: 0 <= i < |arr| ==> arr[i].Record?
    ensures r.Failure? ==> r.error == NullEntryAccess
    ensures r.Success? ==> |r.value| == |arr|
    ensures r.Success? ==> forall i :: 0 <= i < |arr| ==>
              r.value[i] == Sanitize(arr[i].fields, SyntheticId(clock(i), i))
    decreases |arr|
  {
    if |arr| == 0 then Success([])
    else
      var last := |arr| - 1;
      match SanitizeBatch(arr[..last], clock)
      case Failure(e) => Failure(e)
      case Success(front) =>
        if arr[last].NullEntry? then Failure(NullEntryAccess)
        else Success(front + [Sanitize(arr[last].fields, SyntheticId(clock(last), last))])
  }

  /** The whole import: locate the array, then sanitize it. */
  function Pipeline(data: Json, clock: nat -> nat): (r: Result<seq<Item>, Error>)
    ensures data.Falsy? ==> r == Failure(ImportUnparsable)
    ensures !data.Falsy? && ItemsArray(data).None? ==> r == Failure(ImportWithoutItems)
    ensures r.Success? ==> ItemsArray(data).Some? && |r.value| == |ItemsArray(data).value|
    ensures r.Success? ==> AllWellFormed(r.value)
    ensures ImportArray(data).Failure? ==> r == Failure(ImportArray(data).error)
    ensures ImportArray(data).Success? ==> r == SanitizeBatch(ImportArray(data).value, clock)
  {
    match ImportArray(data)
    case Failure(e) => Failure(e)
    case Success(arr) =>
      var r := SanitizeBatch(arr, clock);
      assert r.Success? ==> AllWellFormed(r.value) by {
        if r.Success? {
          forall i | 0 <= i < |r.value| ensures WellFormed(r.value[i]) {
            assert r.value[i] == Sanitize(arr[i].fields, SyntheticId(clock(i), i));
          }
        }
      }
      r
  }

  /** Within one batch, entries without a usable id get pairwise distinct ids,
      entries with one keep it, and order and length follow the input. */
  lemma BatchIds(arr: seq<Entry>, clock: nat -> nat)
    requires SanitizeBatch(arr, clock).Success?
    ensures var items := SanitizeBatch(arr, clock).value;
      && |items| == |arr|
      && (forall i :: 0 <= i < |arr| && Truthy(arr[i].fields.id) ==> items[i].id == arr[i].fields.id.s)
      && (forall i :: 0 <= i < |arr| && !Truthy(arr[i].fields.id) ==> items[i].id == SyntheticId(clock(i), i))
      && (forall i, j ::
            (0 <= i < |arr| && 0 <= j < |arr| && i != j
             && !Truthy(arr[i].fields.id) && !Truthy(arr[j].fields.id))
            ==> items[i].id != items[j].id)
  {
    var items := SanitizeBatch(arr, clock).value;
    forall i, j | 0 <= i < |arr| && 0 <= j < |arr| && i != j
                  && !Truthy(arr[i].fields.id) && !Truthy(arr[j].fields.id)
      ensures items[i].id != items[j].id
    {
      assert items[i].id == SyntheticId(clock(i), i);
      assert items[j].id == SyntheticId(clock(j), j);
      SyntheticIdsDistinct(clock(i), i, clock(j), j);
    }
  }

  /** Sanitizing a written-and-reparsed catalog gives it back exactly when every
      item already satisfies the sanitizer's invariant. */
  lemma BatchOfWrittenItems(items: seq<Item>, clock: nat -> nat)
    ensures SanitizeBatch(ToEntries(items), clock) == Success(items) <==> AllWellFormed(items)
  {
    var es := ToEntries(items);
    var r := SanitizeBatch(es, clock);
    assert r.Success?;
    forall i | 0 <= i < |items|
      ensures r.value[i] == items[i] <==> WellFormed(items[i])
    {
      assert SyntheticId(clock(i), i) != "";
      SanitizeFixesExactlyWellFormed(items[i], SyntheticId(clock(i), i));
    }
    if AllWellFormed(items) {
      assert r.value == items;
    }
  }
}

=== FILE: radix.dfy ===
/** Digit strings as produced by `Number.prototype.toString(radix)` on a
    non-negative integer: base 36 for the timestamp part of a synthetic id,
    base 10 for the positional index appended by a template literal. */
module Radix {

  predicate ValidBase(b: nat) {
    2 <= b <= 36
  }

  /** The lower-case digit characters JavaScript uses: 0-9 then a-z. */
  predicate IsDigitChar(c: char) {
    ('0' <= c <= '9') || ('a' <= c <= 'z')
  }

  function DigitChar(d: nat): (c: char)
    requires d < 36
    ensures IsDigitChar(c)
  {
    if d < 10 then (d + '0' as int) as char else (d - 10 + 'a' as int) as char
  }

  function DigitValue(c: char): nat
    requires IsDigitChar(c)
  {
    if c <= '9' then c as int - '0' as int else c as int - 'a' as int + 10
  }

  /** The digits of `n` in base `b`, most significant first, without leading zeros. */
  function ToRadix(n: nat, b: nat): (s: string)
    requires ValidBase(b)
    ensures |s| >= 1
    ensures forall k :: 0 <= k < |s| ==> IsDigitChar(s[k])
    decreases n
  {
    if n < b then [DigitChar(n)]
    else
      QuotientSmaller(n, b);
      assert n % b < b;
      ToRadix(n / b, b) + [DigitChar(n % b)]
  }

  /** Reads a digit string back as a number (the reference the encoding is checked against). */
  function Value(s: string, b: nat): nat
    requires forall k :: 0 <= k < |s| ==> IsDigitChar(s[k])
  {
    if |s| == 0 then 0 else Value(s[..|s| - 1], b) * b + DigitValue(s[|s| - 1])
  }

  lemma DigitRoundTrip(d: nat)
    requires d < 36
    ensures DigitValue(DigitChar(d)) == d
  {
  }

  lemma ValueOfAppend(prefix: string, c: char, b: nat)
    requires forall k :: 0 <= k < |prefix| ==> IsDigitChar(prefix[k])
    requires IsDigitChar(c)
    ensures Value(prefix + [c], b) == Value(prefix, b) * b + DigitValue(c)
  {
    assert (prefix + [c])[..|prefix|] == prefix;
  }

  lemma QuotientSmaller(n: nat, b: nat)
    requires 2 <= b <= n
    ensures n / b < n && (n / b) * b + n % b == n
  {
  }

  lemma {:induction false} ValueOfToRadix(n: nat, b: nat)
    requires ValidBase(b)
    ensures Value(ToRadix(n, b), b) == n
    decreases n
  {
    if n < b {
      DigitRoundTrip(n);
      assert ToRadix(n, b) == [DigitChar(n)];
      ValueOfAppend([], DigitChar(n), b);
    } else {
      var q, r := n / b, n % b;
      QuotientSmaller(n, b);
      assert ToRadix(n, b) == ToRadix(q, b) + [DigitChar(r)];
      ValueOfAppend(ToRadix(q, b), DigitChar(r), b);
      ValueOfToRadix(q, b);
      DigitRoundTrip(r);
    }
  }

  /** Different numbers never print the same in one base. */
  lemma ToRadixInjective(n: nat, m: nat, b: nat)
    requires ValidBase(b)
    requires ToRadix(n, b) == ToRadix(m, b)
    ensures n == m
  {
    ValueOfToRadix(n, b);
    ValueOfToRadix(m, b);
  }
}

=== FILE: store.dfy ===
/** The catalog store of assets/js/store.js with its I/O made explicit.

    The module-level variables `itemsCache` and `fileHandle`, the IndexedDB
    slot holding the remembered handle, the user's files and the
    localStorage quantities together form one `State`. Everything an
    operation learns from the platform during one call (which APIs exist,
    whether IndexedDB and file writes succeed, what the user answers to a
    permission prompt, the clock) is passed in as an `Env`. Every operation
    is a pure function from a state to the next state plus its outcome. */
module Store {
  import opened Wrappers
  import opened Catalog
  import Import

  /** A permission state as `queryPermission` / `requestPermission` report it. */
  datatype Perm = Granted | Denied | Prompt

  /** What the handle answers to a query and to an explicit request. */
  datatype Answers = Answers(query: Perm, request: Perm)

  /** Whether the handle has `queryPermission`/`requestPermission`, and if so
      what they answer for each access mode. */
  datatype PermissionApi = NoPermissionApi | PermissionApi(read: Answers, readwrite: Answers)

  datatype Mode = Read | ReadWrite

  /** An opaque file handle: `key` tells files apart, `name` is what the platform reports. */
  datatype Handle = Handle(key: nat, name: string)

  /** The platform as one call sees it. `clock` supplies the `Date.now()`
      readings taken while sanitizing (`clock(i)` for element i of an array);
      `idNow` is the separate reading `addItem` takes for its id after the
      catalog has been loaded. */
  datatype Env = Env(
    fsSupported: bool,          // isFsSupported(): both file pickers exist
    idbWorks: bool,             // IndexedDB opens, reads and writes without error
    permissions: PermissionApi, // the permission API of the handle in play
    writeWorks: bool,           // createWritable/write/close succeed
    clock: nat -> nat,
    idNow: nat,
    iso: string)                // new Date().toISOString()

  /** `cache` is `itemsCache` (None while it is null); `handle` is `fileHandle`;
      `registry` is the IndexedDB slot; `files` maps each handle to what its
      file parses to; `quantities` is the cart map kept in localStorage. */
  datatype State = State(
    cache: Option<seq<Item>>,
    handle: Option<Handle>,
    registry: Option<Handle>,
    files: map<Handle, Json>,
    quantities: map<string, int>)

  /** The state after an operation and what the operation returned or threw. */
  datatype Step<T> = Step(state: State, out: Result<T, Error>)

  /** Every cached item satisfies the sanitizer's invariant. */
  predicate Clean(s: State) {
    s.cache.Some? ==> AllWellFormed(s.cache.value)
  }

  /** Every cached price is non-negative. */
  predicate Priced(s: State) {
    s.cache.Some? ==> forall i :: 0 <= i < |s.cache.value| ==> s.cache.value[i].priceCny >= 0.0
  }

  function AnswersFor(mode: Mode, api: PermissionApi): Answers
    requires api.PermissionApi?
  {
    match mode
    case Read => api.read
    case ReadWrite => api.readwrite
  }

  /** One call `ensurePermission` makes on the handle, with the answer it got. */
  datatype Call = Query(answer: Perm) | Request(answer: Perm)

  /** What `ensurePermission` returned, and the permission calls it made to get there, in order. */
  datatype Access = Access(granted: bool, calls: seq<Call>)

  /** `ensurePermission(mode, handle)`: no handle means no access; a handle
      without a permission API is trusted; otherwise the permission is queried
      and, unless the query already grants it, requested from the user. */
  function EnsurePermission(mode: Mode, handle: Option<Handle>, api: PermissionApi): (r: Access)
    ensures handle.None? ==> !r.granted && r.calls == []
    ensures handle.Some? && api.NoPermissionApi? ==> r.granted && r.calls == []
    ensures handle.Some? && api.PermissionApi? ==>
              (r.granted <==> Granted in {AnswersFor(mode, api).query, AnswersFor(mode, api).request})
    // the query always comes first, and the user is prompted only after a query that did not grant
    ensures handle.Some? && api.PermissionApi? ==>
              && 1 <= |r.calls| <= 2
              && r.calls[0] == Query(AnswersFor(mode, api).query)
              && (|r.calls| == 2 <==> AnswersFor(mode, api).query != Granted)
              && (|r.calls| == 2 ==> r.calls[1] == Request(AnswersFor(mode, api).request))
    // the result is the answer of the last call made
    ensures r.calls != [] ==> (r.granted <==> r.calls[|r.calls| - 1].answer == Granted)
  {
    if handle.None? then Access(false, [])
    else if api.NoPermissionApi? then Access(true, [])
    else
      var answers := AnswersFor(mode, api);
      if answers.query == Granted then Access(true, [Query(answers.query)])
      else Access(answers.request == Granted, [Query(answers.query), Request(answers.request)])
  }

  /** Whether a call list contains a request, i.e. the user was prompted. */
  predicate Prompted(calls: seq<Call>) {
    exists k :: 0 <= k < |calls| && calls[k].Request?
  }

  /** Access granted without prompting the user means there was no
      permission API or the query alone already granted it; and a prompt
      always follows a query that did not grant. */
  lemma GrantedWithoutPromptOnlyAfterQuery(mode: Mode, handle: Option<Handle>, api: PermissionApi)
    ensures var r := EnsurePermission(mode, handle, api);
      && (r.granted && !Prompted(r.calls) ==>
            handle.Some? && (api.NoPermissionApi? || AnswersFor(mode, api).query == Granted))
      && (Prompted(r.calls) ==>
            api.PermissionApi? && r.calls[0].Query? && r.calls[0].answer != Granted)
  {
    var r := EnsurePermission(mode, handle, api);
    if handle.Some? && api.PermissionApi? && AnswersFor(mode, api).query != Granted {
      assert r.calls[1].Request?;
    }
  }

  /** `readItemsFromHandle(handle)`: read the file, locate its items array
      (an `items` array or a bare array) and sanitize every entry. */
  function ReadItemsFromHandle(files: map<Handle, Json>, h: Handle, clock: nat -> nat): (r: Result<seq<Item>, Error>)
    ensures h !in files ==> r == Failure(ReadFailed)
    ensures h in files && Import.ItemsArray(files[h]).None? ==> r == Failure(FileWithoutItems)
    ensures h in files && Import.ItemsArray(files[h]).Some? ==>
              r == Import.SanitizeBatch(Import.ItemsArray(files[h]).value, clock)
    ensures h in files && Import.ItemsArray(files[h]).Some? ==>
              var arr := Import.ItemsArray(files[h]).value;
              && (r.Failure? <==> exists i :: 0 <= i < |arr| && arr[i].NullEntry?)
              && (r.Failure? ==> r.error == NullEntryAccess)
              && (r.Success? ==> |r.value| == |arr| && forall i :: 0 <= i < |arr| ==>
                    r.value[i] == Sanitize(arr[i].fields, SyntheticId(clock(i), i)))
    ensures r.Success? ==> AllWellFormed(r.value)
    ensures r.Success? ==> |r.value| == |Import.ItemsArray(files[h]).value|
  {
    if h !in files then Failure(ReadFailed)
    else match Import.ItemsArray(files[h])
      case None => Failure(FileWithoutItems)
      case Some(arr) =>
        var r := Import.SanitizeBatch(arr, clock);
        assert r.Success? ==> AllWellFormed(r.value) by {
          if r.Success? {
            forall i | 0 <= i < |r.value| ensures WellFormed(r.value[i]) {
              assert r.value[i] == Sanitize(arr[i].fields, SyntheticId(clock(i), i));
            }
          }
        }
        r
  }

  /** `writeItemsToHandle(handle, items)`: replace the file's content by the
      wrapper `{ version: 1, updatedAt, items }`. */
  function WriteItemsToHandle(files: map<Handle, Json>, h: Handle, items: seq<Item>, env: Env): (r: Result<map<Handle, Json>, Error>)
    ensures r.Success? <==> env.writeWorks
    ensures r.Failure? ==> r.error == WriteFailed
    ensures r.Success? ==> h in r.value && r.value[h] == Document(UpdatedAt(env.iso), ToEntries(items))
    ensures r.Success? ==> forall g :: g in files && g != h ==> g in r.value && r.value[g] == files[g]
    ensures r.Success? ==> r.value.Keys == files.Keys + {h}
  {
    if env.writeWorks then Success(files[h := Document(UpdatedAt(env.iso), ToEntries(items))])
    else Failure(WriteFailed)
  }

  /** All four conditions under which `init` takes the catalog from the remembered file. */
  predicate FileUsable(s: State, env: Env) {
    && env.fsSupported
    && env.idbWorks
    && s.registry.Some?
    && EnsurePermission(Read, s.registry, env.permissions).granted
    && ReadItemsFromHandle(s.files, s.registry.value, env.clock).Success?
  }

  /** `init()`: restore the remembered file when everything works, and fall
      back to the four defaults on every other path. It never throws, never
      writes, and always leaves a cache of well-formed items. */
  function Init(s: State, env: Env): (r: State)
    ensures r.cache.Some? && AllWellFormed(r.cache.value)
    ensures FileUsable(s, env) ==>
              r.cache == Some(ReadItemsFromHandle(s.files, s.registry.value, env.clock).value)
    ensures !FileUsable(s, env) ==> r.cache == Some(Defaults)
    ensures r.handle == (if env.fsSupported && env.idbWorks && s.registry.Some? then s.registry else s.handle)
    ensures r.registry == s.registry && r.files == s.files && r.quantities == s.quantities
  {
    DefaultsWellFormed();
    var fallback := s.(cache := Some(Defaults));
    if !env.fsSupported || !env.idbWorks then fallback
    else match s.registry
      case None => fallback
      case Some(h) =>
        var bound := s.(handle := Some(h));
        if !EnsurePermission(Read, Some(h), env.permissions).granted then bound.(cache := Some(Defaults))
        else match ReadItemsFromHandle(s.files, h, env.clock)
          case Success(items) => bound.(cache := Some(items))
          case Failure(_) => bound.(cache := Some(Defaults))
  }

  /** `getItems()`: the cache, running `init` first if it has never run. */
  function GetItems(s: State, env: Env): (r: (State, seq<Item>))
    ensures r.0.cache == Some(r.1)
    ensures s.cache.Some? ==> r.0 == s
    ensures s.cache.None? ==> r.0 == Init(s, env)
    ensures r.0.registry == s.registry && r.0.files == s.files && r.0.quantities == s.quantities
  {
    if s.cache.Some? then (s, s.cache.value)
    else var t := Init(s, env); (t, t.cache.value)
  }

  /** Whether `saveItems` writes through to a file. */
  predicate Bound(s: State, env: Env) {
    s.handle.Some? && env.fsSupported
  }

  /** `saveItems(items)`: the cache takes the new list FIRST; only then is
      write permission checked and the file written, so a refused or failed
      write throws while the cache already shows the new list. */
  function SaveItems(s: State, env: Env, items: seq<Item>): (r: Step<()>)
    ensures r.state.cache == Some(items)
    ensures r.state.handle == s.handle && r.state.registry == s.registry
    ensures r.state.quantities == s.quantities
    ensures !Bound(s, env) ==> r == Step(s.(cache := Some(items)), Success(()))
    ensures Bound(s, env) && !EnsurePermission(ReadWrite, s.handle, env.permissions).granted ==>
              r.out == Failure(NoWritePermission) && r.state.files == s.files
    ensures Bound(s, env) && EnsurePermission(ReadWrite, s.handle, env.permissions).granted && !env.writeWorks ==>
              r.out == Failure(WriteFailed)
    ensures r.out.Success? <==>
              !Bound(s, env) || (EnsurePermission(ReadWrite, s.handle, env.permissions).granted && env.writeWorks)
    ensures r.out.Success? && Bound(s, env) ==>
              r.state.files == s.files[s.handle.value := Document(UpdatedAt(env.iso), ToEntries(items))]
    ensures r.out.Failure? ==> r.state.files == s.files
  {
    var t := s.(cache := Some(items));
    if !Bound(s, env) then Step(t, Success(()))
    else if !EnsurePermission(ReadWrite, s.handle, env.permissions).granted then Step(t, Failure(NoWritePermission))
    else match WriteItemsToHandle(s.files, s.handle.value, items, env)
      case Failure(e) => Step(t, Failure(e))
      case Success(files) => Step(t.(files := files), Success(()))
  }

  /** A reload of the page: the module variables are lost, IndexedDB, the
      files and localStorage survive. */
  function Restart(s: State): State {
    s.(cache := None, handle := None)
  }

  /** Read-after-write: whatever happened to the write, the next `getItems`
      returns exactly the list just saved. */
  lemma SaveThenGetItems(s: State, env: Env, items: seq<Item>, env': Env)
    ensures GetItems(SaveItems(s, env, items).state, env').1 == items
  {
  }

  /** Durability: once a well-formed catalog has been written to the file
      the registry remembers, a restart whose `init` may read that file
      restores exactly that catalog. */
  lemma SavedCatalogSurvivesRestart(s: State, env: Env, items: seq<Item>, env': Env)
    requires s.handle.Some? && s.registry == s.handle
    requires Bound(s, env) && SaveItems(s, env, items).out.Success?
    requires env'.fsSupported && env'.idbWorks && EnsurePermission(Read, s.registry, env'.permissions).granted
    requires AllWellFormed(items)
    ensures Init(Restart(SaveItems(s, env, items).state), env').cache == Some(items)
  {
    var t := Restart(SaveItems(s, env, items).state);
    var h := s.handle.value;
    assert t.files[h] == Document(UpdatedAt(env.iso), ToEntries(items));
    Import.BatchOfWrittenItems(items, env'.clock);
    assert ReadItemsFromHandle(t.files, h, env'.clock) == Success(items);
  }

  /** An `init` that may not read the remembered file still binds it. The
      next add that gets write permission then overwrites that file with
      the four defaults plus the new item. */
  lemma RefusedReadThenAddOverwritesFile(s: State, env: Env, raw: RawItem)
    requires s.cache.None? && s.registry.Some?
    requires env.fsSupported && env.idbWorks && env.writeWorks
    requires env.permissions == PermissionApi(Answers(Denied, Denied), Answers(Granted, Granted))
    ensures AddItem(s, env, raw).out.Success?
    ensures AddItem(s, env, raw).state.files[s.registry.value]
              == Document(UpdatedAt(env.iso), ToEntries(Defaults + [Sanitize(raw, AddedId(env.idNow))]))
  {
  }

  /** `getCurrentFileName()`: null without a handle, else the handle's name
      or a fixed placeholder when the platform reports none. */
  function CurrentFileName(s: State): (r: Option<string>)
    ensures r.None? <==> s.handle.None?
    ensures r.Some? ==> r.value != ""
    ensures s.handle.Some? && s.handle.value.name != "" ==> r == Some(s.handle.value.name)
  {
    match s.handle
    case None => None
    case Some(h) => if h.name != "" then Some(h.name) else Some("已选择数据文件")
  }

  /** `chooseDataFile()`: bind to a file the user picks (`picked` is None when
      the dialog is dismissed). The read-permission answer is discarded by
      the source, so it plays no part here. The handle is bound and stored
      before the read, so a file without an items array stays bound while
      the cache keeps its old contents. */
  function ChooseDataFile(s: State, env: Env, picked: Option<Handle>): (r: Step<string>)
    ensures !env.fsSupported ==> r == Step(s, Failure(PickerUnsupported))
    ensures env.fsSupported && picked.None? ==> r == Step(s, Failure(PickerCancelled))
    ensures env.fsSupported && picked.Some? ==> r.state.handle == picked
    ensures env.fsSupported && picked.Some? ==>
              (r.out.Success? <==> env.idbWorks && ReadItemsFromHandle(s.files, picked.value, env.clock).Success?)
    ensures env.fsSupported && picked.Some? && env.idbWorks ==> r.state.registry == picked
    ensures env.fsSupported && picked.Some? && env.idbWorks && ReadItemsFromHandle(s.files, picked.value, env.clock).Failure? ==>
              r.out == Failure(ReadItemsFromHandle(s.files, picked.value, env.clock).error)
    ensures env.fsSupported && picked.Some? && !env.idbWorks ==>
              r == Step(s.(handle := picked), Failure(RegistryFailed))
    ensures r.out.Success? ==>
              && picked.Some? && r.state.registry == picked
              && ReadItemsFromHandle(s.files, picked.value, env.clock).Success?
              && r.state.cache == Some(ReadItemsFromHandle(s.files, picked.value, env.clock).value)
              && Some(r.out.value) == CurrentFileName(r.state)
    ensures r.out.Failure? ==> r.state.cache == s.cache
    ensures r.state.files == s.files && r.state.quantities == s.quantities
    ensures Clean(s) ==> Clean(r.state)
  {
    if !env.fsSupported then Step(s, Failure(PickerUnsupported))
    else match picked
      case None => Step(s, Failure(PickerCancelled))
      case Some(h) =>
        var bound := s.(handle := Some(h));
        if !env.idbWorks then Step(bound, Failure(RegistryFailed))
        else
          var stored := bound.(registry := Some(h));
          match ReadItemsFromHandle(s.files, h, env.clock)
          case Failure(e) => Step(stored, Failure(e))
          case Success(items) =>
            var t := stored.(cache := Some(items));
            Step(t, Success(CurrentFileName(t).value))
  }

  /** `createDataFile()`: bind to a new file the user names, remember it,
      reset the cache to the defaults and write them. No permission check
      precedes this write. */
  function CreateDataFile(s: State, env: Env, picked: Option<Handle>): (r: Step<string>)
    ensures !env.fsSupported ==> r == Step(s, Failure(PickerUnsupported))
    ensures env.fsSupported && picked.None? ==> r == Step(s, Failure(PickerCancelled))
    ensures env.fsSupported && picked.Some? ==> r.state.handle == picked
    ensures env.fsSupported && picked.Some? && env.idbWorks ==>
              r.state.registry == picked && r.state.cache == Some(Defaults)
    ensures env.fsSupported && picked.Some? && !env.idbWorks ==>
              r == Step(s.(handle := picked), Failure(RegistryFailed))
    ensures env.fsSupported && picked.Some? ==> (r.out.Success? <==> env.idbWorks && env.writeWorks)
    ensures env.fsSupported && picked.Some? && env.idbWorks && !env.writeWorks ==> r.out == Failure(WriteFailed)
    ensures r.out.Failure? ==> r.state.files == s.files
    ensures r.out.Success? ==>
              && picked.Some?
              && r.state.files == s.files[picked.value := Document(UpdatedAt(env.iso), ToEntries(Defaults))]
              && Some(r.out.value) == CurrentFileName(r.state)
    ensures r.state.quantities == s.quantities
    ensures Clean(s) ==> Clean(r.state)
  {
    if !env.fsSupported then Step(s, Failure(PickerUnsupported))
    else match picked
      case None => Step(s, Failure(PickerCancelled))
      case Some(h) =>
        var bound := s.(handle := Some(h));
        if !env.idbWorks then Step(bound, Failure(RegistryFailed))
        else
          var reset := bound.(registry := Some(h), cache := Some(Defaults));
          match WriteItemsToHandle(s.files, h, Defaults, env)
          case Failure(e) => Step(reset, Failure(e))
          case Success(files) =>
            var t := reset.(files := files);
            Step(t, Success(CurrentFileName(t).value))
  }

  /** `addItem(item)`: sanitize the argument (a missing id becomes
      `ic-<time in base 36>`), append it and save. The returned item is the
      one stored last. */
  function AddItem(s: State, env: Env, raw: RawItem): (r: Step<Item>)
    ensures var before := GetItems(s, env).1;
      && r.state.cache.Some?
      && |r.state.cache.value| == |before| + 1
      && r.state.cache.value[..|before|] == before
      && r.state.cache.value[|before|] == Sanitize(raw, AddedId(env.idNow))
      && (r.out.Success? ==> r.out.value == r.state.cache.value[|before|])
    ensures var (loaded, before) := GetItems(s, env);
      var saved := SaveItems(loaded, env, before + [Sanitize(raw, AddedId(env.idNow))]);
      && (r.out.Success? <==> saved.out.Success?)
      && (r.out.Failure? ==> r.out.error == saved.out.error)
      && r.state == saved.state
    ensures r.out.Success? ==> WellFormed(r.out.value)
    ensures Truthy(raw.id) ==> r.state.cache.value[|r.state.cache.value| - 1].id == raw.id.s
    ensures r.state.quantities == s.quantities
    ensures Clean(s) ==> Clean(r.state)
  {
    var (loaded, items) := GetItems(s, env);
    var clean := Sanitize(raw, AddedId(env.idNow));
    var saved := SaveItems(loaded, env, items + [clean]);
    assert (items + [clean])[..|items|] == items;
    match saved.out
    case Success(_) => Step(saved.state, Success(clean))
    case Failure(e) => Step(saved.state, Failure(e))
  }

  /** The first position of an item with `id`, or -1 when there is none. */
  function FindIndex(items: seq<Item>, id: string): (k: int)
    ensures -1 <= k < |items|
    ensures k == -1 <==> forall j :: 0 <= j < |items| ==> items[j].id != id
    ensures k >= 0 ==> items[k].id == id && forall j :: 0 <= j < k ==> items[j].id != id
  {
    if |items| == 0 then -1
    else if items[0].id == id then 0
    else
      var k := FindIndex(items[1..], id);
      if k == -1 then -1 else k + 1
  }

  /** The item `updateItem` stores: the old item with every field the patch
      gives as non-null replaced (an empty string included), the id kept,
      and the price clamped at zero. */
  function Merge(current: Item, patch: RawItem): (it: Item)
    ensures it.id == current.id
    ensures it.priceCny >= 0.0
    ensures patch.name.Absent? ==> it.name == current.name
    ensures patch.name.Text? ==> it.name == patch.name.s
    ensures patch.imageUrl.Absent? ==> it.imageUrl == current.imageUrl
    ensures patch.imageUrl.Text? ==> it.imageUrl == patch.imageUrl.s
    ensures patch.unit.Absent? ==> it.unit == current.unit
    ensures patch.unit.Text? ==> it.unit == patch.unit.s
    ensures patch.priceCny.NoPrice? ==> it.priceCny == NonNegative(current.priceCny)
    ensures patch.priceCny.Num? ==> it.priceCny == NonNegative(patch.priceCny.v)
    ensures (patch.name.Absent? && patch.priceCny.NoPrice? && patch.imageUrl.Absent? && patch.unit.Absent?
             && current.priceCny >= 0.0) ==> it == current
  {
    var price := match patch.priceCny
      case NoPrice => current.priceCny
      case Num(v) => v;
    current.(name := IfNullish(patch.name, current.name), priceCny := NonNegative(price),
         imageUrl := IfNullish(patch.imageUrl, current.imageUrl), unit := IfNullish(patch.unit, current.unit))
  }

  /** Applying the same patch twice changes nothing more. */
  lemma MergeIdempotent(current: Item, patch: RawItem)
    ensures Merge(Merge(current, patch), patch) == Merge(current, patch)
  {
  }

  /** The nullish fallback of update keeps an empty name that add would have
      replaced by the default name. */
  lemma UpdateKeepsEmptyName(current: Item, patch: RawItem, fallbackId: string)
    requires patch.name == Text("")
    ensures Merge(current, patch).name == ""
    ensures Sanitize(patch, fallbackId).name == DefaultName
  {
  }

  /** `updateItem(patch)`: with an id absent from the catalog nothing is
      saved and the result is false; otherwise exactly the first item with
      that id is merged with the patch and the list is saved. */
  function UpdateItem(s: State, env: Env, patch: RawItem): (r: Step<bool>)
    ensures var (loaded, before) := GetItems(s, env);
      && (r.out == Success(false) <==>
            patch.id.Absent? || forall j :: 0 <= j < |before| ==> before[j].id != patch.id.s)
      && (r.out == Success(false) ==> r.state == loaded)
      && (r.out != Success(false) ==>
            && r.state.cache.Some? && |r.state.cache.value| == |before|
            && r.out.Success? == SaveItems(loaded, env, r.state.cache.value).out.Success?
            && (r.out.Failure? ==> r.out.error == SaveItems(loaded, env, r.state.cache.value).out.error)
            && r.state == SaveItems(loaded, env, r.state.cache.value).state
            && exists k :: 0 <= k < |before| && Changed(before, r.state.cache.value, k, patch))
    ensures r.state.quantities == s.quantities
    ensures Priced(s) ==> Priced(r.state)
  {
    var (loaded, items) := GetItems(s, env);
    if patch.id.Absent? then Step(loaded, Success(false))
    else
      var k := FindIndex(items, patch.id.s);
      if k == -1 then Step(loaded, Success(false))
      else
        var after := items[k := Merge(items[k], patch)];
        assert Changed(items, after, k, patch);
        var saved := SaveItems(loaded, env, after);
        match saved.out
        case Success(_) => Step(saved.state, Success(true))
        case Failure(e) => Step(saved.state, Failure(e))
  }

  /** `after` differs from `before` only at `k`, the first item with the
      patch's id, which has been merged with the patch. */
  predicate Changed(before: seq<Item>, after: seq<Item>, k: int, patch: RawItem)
    requires 0 <= k < |before| && |after| == |before|
  {
    && patch.id.Text? && before[k].id == patch.id.s
    && (forall j :: 0 <= j < k ==> before[j].id != patch.id.s)
    && after[k] == Merge(before[k], patch)
    && after[k].id == before[k].id
    && (forall j :: 0 <= j < |before| && j != k ==> after[j] == before[j])
  }

  /** The catalog with every item whose id is `id` removed. */
  function Without(items: seq<Item>, id: string): (r: seq<Item>)
    ensures |r| <= |items|
    ensures forall k :: 0 <= k < |r| ==> r[k].id != id
    ensures forall x :: x in items && x.id != id ==> x in r
    ensures forall x :: x in r ==> x in items
    ensures (forall k :: 0 <= k < |items| ==> items[k].id != id) ==> r == items
  {
    if |items| == 0 then []
    else
      var rest := Without(items[1..], id);
      assert items == [items[0]] + items[1..];
      if items[0].id == id then rest else [items[0]] + rest
  }

  /** `xs` is `ys` with some elements left out, the rest in their order. */
  predicate IsSubsequence(xs: seq<Item>, ys: seq<Item>)
    decreases |ys|
  {
    |xs| == 0 || (|ys| > 0 && ((xs[0] == ys[0] && IsSubsequence(xs[1..], ys[1..])) || IsSubsequence(xs, ys[1..])))
  }

  /** Deleting keeps the survivors in their order and with their multiplicity,
      and leaves no copy of a deleted item. */
  lemma {:induction false} WithoutKeepsOrder(items: seq<Item>, id: string)
    ensures IsSubsequence(Without(items, id), items)
    ensures forall x: Item :: x.id != id ==> multiset(Without(items, id))[x] == multiset(items)[x]
    ensures forall x: Item :: x.id == id ==> multiset(Without(items, id))[x] == 0
  {
    if |items| > 0 {
      WithoutKeepsOrder(items[1..], id);
      assert items == [items[0]] + items[1..];
      var rest := Without(items[1..], id);
      if items[0].id != id {
        assert Without(items, id) == [items[0]] + rest;
        assert ([items[0]] + rest)[1..] == rest;
      }
    }
  }

  /** `deleteItem(id)`: drop every item with that id and save; only when the
      save succeeded is the id's quantity entry removed, and only if present. */
  function DeleteItem(s: State, env: Env, id: string): (r: Step<()>)
    ensures r.state.cache == Some(Without(GetItems(s, env).1, id))
    ensures r.out.Success? ==> r.state.quantities == s.quantities - {id}
    ensures r.out.Failure? || id !in s.quantities ==> r.state.quantities == s.quantities
    ensures r.out == SaveItems(GetItems(s, env).0, env, Without(GetItems(s, env).1, id)).out
    ensures var saved := SaveItems(GetItems(s, env).0, env, Without(GetItems(s, env).1, id)).state;
      r.state.files == saved.files && r.state.handle == saved.handle && r.state.registry == saved.registry
    ensures Clean(s) ==> Clean(r.state)
  {
    var (loaded, items) := GetItems(s, env);
    var saved := SaveItems(loaded, env, Without(items, id));
    if saved.out.Failure? then saved
    else if id in saved.state.quantities then
      Step(saved.state.(quantities := saved.state.quantities - {id}), Success(()))
    else
      assert saved.state.quantities - {id} == saved.state.quantities;
      saved
  }

  /** `exportItems()`: the cache (loaded first if need be) in the wrapper
      `{ version: 1, generatedAt, items }`. */
  function ExportItems(s: State, env: Env): (r: (State, Json))
    ensures r.0 == GetItems(s, env).0
    ensures r.1.JObject? && r.1.version == Some(1) && r.1.stamp == Some(GeneratedAt(env.iso))
    ensures r.1.items == Some(ToEntries(r.0.cache.value))
  {
    var (loaded, items) := GetItems(s, env);
    (loaded, Document(GeneratedAt(env.iso), ToEntries(items)))
  }

  /** `importItemsFromText(text)`: parse, sanitize every entry, replace the
      cache through `saveItems`, then clear the cart and return the count.
      The two payload errors leave the state untouched; a failed save leaves
      the new cache but keeps the quantities. */
  function ImportItemsFromText(s: State, env: Env, data: Json): (r: Step<nat>)
    ensures data.Falsy? ==> r == Step(s, Failure(ImportUnparsable))
    ensures !data.Falsy? && Import.ItemsArray(data).None? ==> r == Step(s, Failure(ImportWithoutItems))
    ensures r.out.Success? ==>
              && Import.ItemsArray(data).Some?
              && r.state.cache.Some?
              && r.out.value == |r.state.cache.value| == |Import.ItemsArray(data).value|
              && AllWellFormed(r.state.cache.value)
              && r.state.quantities == map[]
    ensures Import.Pipeline(data, env.clock).Failure? ==>
              r == Step(s, Failure(Import.Pipeline(data, env.clock).error))
    ensures Import.Pipeline(data, env.clock).Success? ==>
              var saved := SaveItems(s, env, Import.Pipeline(data, env.clock).value);
              && r.state.cache == Some(Import.Pipeline(data, env.clock).value)
              && (r.out.Success? <==> saved.out.Success?)
              && (r.out.Failure? ==> saved.out.Failure? && r.out.error == saved.out.error)
              && r.state.files == saved.state.files
    ensures r.out.Failure? ==> r.state.quantities == s.quantities
    ensures r.state.handle == s.handle && r.state.registry == s.registry
    ensures Clean(s) ==> Clean(r.state)
  {
    match Import.Pipeline(data, env.clock)
    case Failure(e) => Step(s, Failure(e))
    case Success(cleaned) =>
      var saved := SaveItems(s, env, cleaned);
      match saved.out
      case Failure(e) => Step(saved.state, Failure(e))
      case Success(_) => Step(saved.state.(quantities := map[]), Success(|cleaned|))
  }

  /** Export followed by import restores the catalog that was exported, in
      order and field by field, whenever the catalog is well-formed. */
  lemma ExportThenImport(s: State, env: Env, t: State, env': Env)
    requires s.cache.None? || AllWellFormed(s.cache.value)
    ensures var (loaded, doc) := ExportItems(s, env);
      && ImportItemsFromText(t, env', doc).state.cache == loaded.cache
      && (ImportItemsFromText(t, env', doc).out.Success? ==>
            ImportItemsFromText(t, env', doc).out.value == |loaded.cache.value|)
  {
    var (loaded, doc) := ExportItems(s, env);
    var items := loaded.cache.value;
    assert AllWellFormed(items);
    Import.BatchOfWrittenItems(items, env'.clock);
    assert Import.Pipeline(doc, env'.clock) == Success(items);
  }

  /** `getQuantities()`: the cart map as localStorage last stored it. */
  function GetQuantities(s: State): (q: map<string, int>)
    ensures q == s.quantities
  {
    s.quantities
  }

  /** The cart lives in localStorage: a page reload keeps it, and neither
      `init` nor any catalog save touches it. */
  lemma QuantitiesSurviveReload(s: State, env: Env, items: seq<Item>)
    ensures GetQuantities(Init(Restart(s), env)) == GetQuantities(s)
    ensures GetQuantities(SaveItems(s, env, items).state) == GetQuantities(s)
  {
  }

  /** `saveQuantities(q)`: the cart map is replaced; the catalog is not touched. */
  function SaveQuantities(s: State, q: map<string, int>): (r: State)
    ensures GetQuantities(r) == q
    ensures r.cache == s.cache && r.handle == s.handle && r.registry == s.registry && r.files == s.files
  {
    s.(quantities := q)
  }

  /** `clearQuantities()` */
  function ClearQuantities(s: State): (r: State)
    ensures GetQuantities(r) == map[]
    ensures r.cache == s.cache && r.handle == s.handle && r.registry == s.registry && r.files == s.files
  {
    SaveQuantities(s, map[])
  }

}

=== FILE: wrappers.dfy ===
/** Failure-carrying values used by every other module: `Option` for the
    JavaScript values that may be null, `Result` for operations that throw. */
module Wrappers {

  datatype Option<+T> = None | Some(value: T)

  /** `Failure` stands for a thrown `Error`; `Success` for a normal return. */
  datatype Result<+T, +E> = Success(value: T) | Failure(error: E)
}
